=== FILE: README.md ===
# WebMon watch store and request logic, in Dafny

WebMon lets a user register Watches. A Watch is a URL, an XPath expression and a polling
period. The system records Values, the timestamped results extracted for a Watch. This
project models the part of WebMon whose behaviour the code fixes:

- the entity rules of the Watch and Value tables. The first save of a Watch stamps
  `next_check = now + period`, and the first save of a Value stamps `created = now`. A Value's
  content defaults to the empty string. Deleting a user deletes their Watches, and deleting a
  Watch deletes its Values (module `Models`, `models.dfy`);
- the four API views. Each is a pure function to a status, a body and the new store, from
  the arguments it reads among the store, the authenticated requester (`None` for a request
  without credentials), the request and the current instant (module `Views`, `views.dfy`);
- properties of whole requests and request pairs. These are: the store invariant is kept,
  other users' Watches are never touched, failures change nothing, create-then-delete restores
  the store, and `next_check` is stamped exactly once (module `Properties`, `properties.dfy`).

The store holds the set of users, the Watch and Value tables (maps keyed by primary key) and
the next key of each auto-increment counter. `Valid` is the store invariant: every owner
exists, no Value refers to a missing Watch, every Watch has a `next_check`, the counters start
at 1, and every key in use came from its counter.

Time is an integer parameter `now`. Durations and instants share one unit.

Two points of the code are followed as they stand:

- A period is only required to be present; zero or negative periods are accepted.
- The value-list view has no permission class. The model assumes the framework default,
  which admits any client.

Two places where the code evidently departs from its intent are listed under Findings. Both
versions are modelled. `Views.Api` selects one: `AsWritten` is the code as it stands,
`Corrected` uses the corrected update and the guarded value list. `Views.WatchDetail`,
`Views.Handle` and every lemma over requests take it as a parameter and state both.

## Model

| member | source | states |
|---|---|---|
| Models.OwnedBy | WebMon/views.py:16 | a user's Watches are exactly the Watches whose owner is that user, unchanged |
| Models.ValuesOf | WebMon/views.py:80 | a Watch's Values are exactly the Values whose `watch` is that Watch, unchanged |
| Models.SaveWatch | WebMon/models.py:14-18 | a first save takes a fresh key and stamps `next_check` as `now + period`, keeping the other fields; a later save writes the instance as held and never re-stamps `next_check`; a missing owner is an integrity error; other rows stay as they were; the store invariant is kept unless a later save writes a null `next_check`, which the hook does not re-stamp |
| Models.NewValue | WebMon/models.py:24 | a Value constructed without content has content `""`, and has no key and no `created` yet |
| Models.SaveValue | WebMon/models.py:26-30 | a save of an instance whose id is absent or 0 (false as a truth value) stamps `created = now`, an absent id taking a fresh key; any other save keeps the timestamp the instance holds, whatever `now` is; a missing Watch, or a NULL `created` on a save that does not stamp, is an integrity error; other rows stay as they were; the store invariant is kept |
| Models.CreatedStampedOnce | WebMon/models.py:23-30 | creating a Value at t1 and re-saving the loaded instance with new content at any t2 leaves `created == t1`; omitted content is stored as `""` |
| Models.DeleteWatch | WebMon/models.py:22 | deleting a Watch removes it and exactly the Values that refer to it; every other row is unchanged and no Value is left dangling |
| Models.DeleteUser | WebMon/models.py:12 | deleting a user removes exactly that user's Watches and, transitively, exactly the Values of those Watches; everything else is unchanged and the invariant is kept |
| Views.Errors | WebMon/models.py:6-9 | the failing fields of a create or update are exactly: the name when blank or over 50 characters, the url when blank, the xpath when blank or over 200 characters, the period when missing |
| Views.WatchList | WebMon/views.py:12-25 | no credentials gives 401 and no change; GET returns exactly the requester's Watches; an invalid POST gives 400 with the failing fields and no change; a valid POST gives 201 and adds one Watch under a fresh key, with the input's fields, `notify` False unless sent, `owner` = requester and `next_check = now + period`, advances only the Watch counter, and changes nothing else |
| Views.ApplyPut | WebMon/views.py:43-48 | a valid update takes name, url, xpath and period from the input, and `notify` when it is sent (otherwise keeps it), and keeps `next_check` and the owner |
| Views.ApplyPutAsWritten | WebMon/serializers.py:7-12 | as the code stands, an update also takes a client-sent `next_check`, an instant or a null; without one it equals the corrected update |
| Views.PutAsWrittenMovesNextCheck | WebMon/tests/test_watch_views.py:165-181 | the update-test data, plus a `next_check` field, passes validation and moves the stamped `next_check` as the code stands, but not under the corrected update |
| Views.WatchDetail | WebMon/views.py:28-52 | 401 without credentials; then 404 for a missing key, before ownership is considered; then 401 for a non-owner; all three change nothing; for the owner, GET returns the Watch; an invalid PUT gives 400 and no change; a valid PUT gives 200, replaces the editable fields (`notify` only when sent) and keeps the owner, the users, the other Watches, the Values and (for a valid store) both counters; it keeps `next_check`, except that as the code stands a client-sent `next_check`, instant or null, replaces it; DELETE gives 204 and removes only that Watch and its Values |
| Views.LatestExists | WebMon/views.py:66 | every non-empty set of Values has a latest element under (created, key) order, and any two latest elements are the same |
| Views.Latest | WebMon/views.py:66 | the chosen Value has the greatest `created` of all given Values; there is none exactly when there are no Values |
| Views.WatchValueLatest | WebMon/views.py:55-70 | never changes the store; 401 without credentials, then 404 for a missing key, then 401 for a non-owner; for the owner, a server error exactly when the Watch has no Values, otherwise 200 with one of its Values whose `created` is maximal |
| Views.WatchValueList | WebMon/views.py:73-83 | never changes the store; 404 exactly when the key is missing; otherwise 200 with exactly the Watch's Values, with no requester consulted |
| Views.WatchValueListGuarded | WebMon/views.py:56-64 | the value list with the latest-value guards: 200 exactly for the authenticated owner of an existing Watch, with the same answer as the unguarded view; otherwise no body, and 401 without credentials, 404 for a missing key, 401 for a non-owner |
| Views.ValueListAsWrittenLeaks | WebMon/views.py:73-83 | on the value-test fixture (one Watch of user 1 with two Values), a client without credentials reads the owner's Values as the code stands; the guarded view refuses both that client and another user |
| Views.Handle | WebMon/urls.py:6-9 | only an authenticated create, update or delete changes the store; a 200 on a detail route returns the Watch stored under the requested key after the request, and a 200 on a value route names an existing Watch |
| Properties.HandlePreservesValid | WebMon/models.py:10-22 | as the code stands and corrected, every request on any route keeps owners existing, no dangling Values and keys fresh; every Watch stays scheduled once corrected, and as the code stands under every request except an update sending a null `next_check` |
| Properties.PutNullUnschedules | WebMon/models.py:10-18 | as the code stands, a valid update by the owner that sends `next_check` as null answers 200 and leaves the Watch with no `next_check`, breaking the store invariant; the corrected update keeps the stamped instant |
| Properties.FailuresChangeNothing | WebMon/views.py:28-37 | as the code stands and corrected, a request answered 400, 401, 404 or 500 leaves the store unchanged |
| Properties.UnauthenticatedIsRefused | WebMon/views.py:12-83 | without credentials, list/create, detail and latest-value answer 401 with no body and no change; the value list does too once corrected, while as the code stands it answers 200 for any existing Watch and 404 otherwise, changing nothing |
| Properties.OthersWatchesUntouched | WebMon/views.py:36-37 | as the code stands and corrected, no request changes or removes a Watch the requester does not own, or any Value of such a Watch |
| Properties.ListedExactlyForOwner | WebMon/views.py:15-18 | each Watch's owner exists, and the Watch appears in a user's list exactly when that user is its owner |
| Properties.CreateThenDeleteRestores | WebMon/views.py:50-52 | creating a Watch and then deleting it (204) restores the store exactly, except that the used key is not handed out again |
| Properties.NextCheckStampedOnce | WebMon/models.py:14-18 | a Watch created at t1 keeps its owner through any valid update at any t2, and the update's name is applied; it keeps `next_check = t1 + period` through every such update once corrected, and as the code stands through every update that sends no `next_check`, while one that sends it stores the sent instant or null |

## Left out

- `WebMon/scrapper.py`: lxml parsing and XPath evaluation happen in a library outside the
  model. No view calls the scrapper, and its tests are skipped.
- Fetching, scheduling, retries and notification: none of these exists in the code.
- URL routing: `Views.Handle` dispatches on a `Request` datatype, one constructor per route
  of `WebMon/urls.py`. The route regexes are not modelled.
- HTTP methods a view does not accept (405 answers): not modelled.
- JSON rendering by the serializers: bodies carry the rows, the row maps, or the set of
  fields that failed validation.
- Authentication, sessions and the users table's own fields: the requester is an abstract
  `Option<UserId>`.
- Field validation beyond blankness, the two length limits of `models.py` and presence of the
  period. This covers URL syntax checks, the URL field's own default length limit, and the
  trimming of surrounding whitespace. These are rules of the web framework, outside the model.
- Views.WatchDetail: an update sent form-encoded reads an omitted `notify` as False; the model
  follows JSON input, where an omitted `notify` keeps the stored value.
- Result order of the list views: the database's default order is left open, so bodies are
  maps keyed by primary key.
- Views.Latest: among Values with equal `created` it picks the larger key, where the database
  leaves the choice open. The contract promises only a maximal `created`.
- Clock, time zones and the bounded range of date-times: `now` is an unbounded integer.
- Database failures other than the two integrity errors (missing foreign-key target, NULL
  `created`): not modelled.
- Concurrency between requests: requests are handled one at a time.

## Findings

| source | as written | input that shows it | evidently intended | confidence | as-written member | corrected member |
|---|---|---|---|---|---|---|
| WebMon/serializers.py:12 | `next_check` is listed as a serializer field and is not read-only; the model column is nullable, so the field is optional and writable, and an update applies whatever the client sends | PUT `/watches/<pk>` by the owner with valid fields plus `next_check` set to another instant, or to null, which leaves the Watch unscheduled | updates never change `next_check`, as the docstring and assertion of WebMon/tests/test_watch_views.py:165-181 state | medium: relies on the serializer library's usual treatment of nullable columns as optional writable fields; not executed | Views.ApplyPutAsWritten (shown by Views.PutAsWrittenMovesNextCheck and Properties.PutNullUnschedules) | Views.ApplyPut |
| WebMon/views.py:73-74 | `watch_value_list` has no permission class and no owner comparison | GET `/watches/<pk>/value/all` for an existing Watch, sent without credentials or by another user, answers 200 with the Watch's Values | the same authentication and ownership guards as `watch_value_latest` (WebMon/views.py:56-64) | medium: assumes the framework's default permission admits any client; not executed | Views.WatchValueList (shown by Views.ValueListAsWrittenLeaks) | Views.WatchValueListGuarded |

=== FILE: models.dfy ===
/**
 * The persistent part of the watch monitor: Watches owned by users, and the
 * Values recorded for each Watch, kept in an in-memory store that stands in
 * for the database tables. The save hooks that stamp `next_check` and
 * `created` on first insert, the `content` default, and the cascading
 * foreign keys (user -> Watch -> Value) are written out explicitly.
 */
module Models {

  datatype Option<+T> = None | Some(value: T)

  type UserId = nat
  type WatchId = nat
  type ValueId = nat

  /** Instants and durations share one unit; the current instant is always a parameter `now`. */
  type Time = int
  type Duration = int

  /** Column limits of the Watch table. */
  const NameMaxLength: nat := 50
  const XPathMaxLength: nat := 200

  /** A Watch row, or a Watch instance about to be saved; `nextCheck` is a nullable column. */
  datatype Watch = Watch(
    name: string,
    url: string,
    xpath: string,
    period: Duration,
    nextCheck: Option<Time>,
    notify: bool,
    owner: UserId)

  /** A Value row: one recorded extraction result of the Watch `watch`. */
  datatype Value = Value(watch: WatchId, created: Time, content: string)

  /** A Value instance: it has no id and no `created` until it is first saved. */
  datatype ValueInstance = ValueInstance(
    id: Option<ValueId>,
    watch: WatchId,
    created: Option<Time>,
    content: string)

  /** The three tables, plus the next key each auto-increment primary key hands out. */
  datatype Store = Store(
    users: set<UserId>,
    watches: map<WatchId, Watch>,
    values: map<ValueId, Value>,
    nextWatchId: WatchId,
    nextValueId: ValueId)

  /** Outcome of writing one row: the new store and the row's key, or a violated constraint. */
  datatype SaveResult = Saved(store: Store, id: nat) | IntegrityError

  /** Every Watch has exactly one owner, and that user exists. */
  ghost predicate OwnersExist(s: Store) {
    forall id :: id in s.watches ==> s.watches[id].owner in s.users
  }

  /** No Value refers to a missing Watch. */
  ghost predicate NoDanglingValues(s: Store) {
    forall id :: id in s.values ==> s.values[id].watch in s.watches
  }

  /** Every saved Watch has had its `next_check` stamped. */
  ghost predicate Scheduled(s: Store) {
    forall id :: id in s.watches ==> s.watches[id].nextCheck.Some?
  }

  /** Every key in use was handed out by its counter, so the counters name fresh keys; like
      the database's auto-increment keys, the counters start at 1. */
  ghost predicate IdsIssued(s: Store) {
    && s.nextWatchId > 0
    && s.nextValueId > 0
    && (forall id :: id in s.watches ==> id < s.nextWatchId)
    && (forall id :: id in s.values ==> id < s.nextValueId)
  }

  ghost predicate Valid(s: Store) {
    OwnersExist(s) && NoDanglingValues(s) && Scheduled(s) && IdsIssued(s)
  }

  /** The reverse relation `user.watches`: the Watches whose owner is `u`. */
  function OwnedBy(s: Store, u: UserId): (r: map<WatchId, Watch>)
    ensures forall id :: id in r <==> id in s.watches && s.watches[id].owner == u
    ensures forall id :: id in r ==> r[id] == s.watches[id]
  {
    map id | id in s.watches && s.watches[id].owner == u :: s.watches[id]
  }

  /** The reverse relation `watch.values`: the Values recorded for Watch `w`. */
  function ValuesOf(s: Store, w: WatchId): (r: map<ValueId, Value>)
    ensures forall id :: id in r <==> id in s.values && s.values[id].watch == w
    ensures forall id :: id in r ==> r[id] == s.values[id]
  {
    map id | id in s.values && s.values[id].watch == w :: s.values[id]
  }

  /** Writes Watch instance `w`; `pk` is the instance's primary key, absent before the first save.
      Only the first save stamps `next_check`, from the creation instant and the period. */
  function SaveWatch(s: Store, pk: Option<WatchId>, w: Watch, now: Time): (r: SaveResult)
    ensures r.IntegrityError? <==> w.owner !in s.users
    ensures r.Saved? ==>
      && r.store.users == s.users
      && r.store.values == s.values
      && r.store.nextValueId == s.nextValueId
      && r.store.watches.Keys == s.watches.Keys + {r.id}
      && (forall id :: id in s.watches && id != r.id ==> r.store.watches[id] == s.watches[id])
    ensures r.Saved? && pk.None? ==>
      && r.id == s.nextWatchId
      && (IdsIssued(s) ==> r.id !in s.watches)
      && r.store.watches[r.id].nextCheck == Some(now + w.period)
      && r.store.watches[r.id] == w.(nextCheck := r.store.watches[r.id].nextCheck)
    ensures r.Saved? && pk.Some? ==> r.id == pk.value && r.store.watches[r.id] == w
    ensures r.Saved? && Valid(s) && (pk.Some? ==> w.nextCheck.Some?) ==> Valid(r.store)
  {
    if w.owner !in s.users then IntegrityError
    else
      match pk
      case None =>
        var id := s.nextWatchId;
        Saved(s.(watches := s.watches[id := w.(nextCheck := Some(now + w.period))],
                 nextWatchId := id + 1), id)
      case Some(id) =>
        Saved(s.(watches := s.watches[id := w],
                 nextWatchId := if id < s.nextWatchId then s.nextWatchId else id + 1), id)
  }

  /** Constructs an unsaved Value; without a content argument the content is the empty string. */
  function NewValue(watch: WatchId, content: Option<string>): (v: ValueInstance)
    ensures v.id.None? && v.created.None? && v.watch == watch
    ensures content.None? ==> v.content == ""
    ensures content.Some? ==> v.content == content.value
  {
    ValueInstance(None, watch, None, match content case Some(c) => c case None => "")
  }

  /** Reads Value `id` back as an instance, as a later save would see it. */
  function LoadValue(s: Store, id: ValueId): (v: ValueInstance)
    requires id in s.values
  {
    var v := s.values[id];
    ValueInstance(Some(id), v.watch, Some(v.created), v.content)
  }

  /** The Value hook's test for a first save: the id is absent or 0, both false as truth values. */
  predicate NoId(v: ValueInstance) {
    v.id.None? || v.id == Some(0)
  }

  /** Writes Value instance `v`. A save of an instance without an id stamps `created` with `now`;
      any other save writes the timestamp the instance holds. An absent id takes the next counter
      key. A missing Watch, or a NULL `created` on a save that does not stamp, is refused. */
  function SaveValue(s: Store, v: ValueInstance, now: Time): (r: SaveResult)
    ensures r.IntegrityError? <==> v.watch !in s.watches || (!NoId(v) && v.created.None?)
    ensures r.Saved? ==>
      && r.store.users == s.users
      && r.store.watches == s.watches
      && r.store.nextWatchId == s.nextWatchId
      && r.store.values.Keys == s.values.Keys + {r.id}
      && (forall id :: id in s.values && id != r.id ==> r.store.values[id] == s.values[id])
      && r.store.values[r.id].watch == v.watch
      && r.store.values[r.id].content == v.content
    ensures r.Saved? && v.id.None? ==> r.id == s.nextValueId && (IdsIssued(s) ==> r.id !in s.values)
    ensures r.Saved? && v.id.Some? ==> r.id == v.id.value
    ensures r.Saved? && NoId(v) ==> r.store.values[r.id].created == now
    ensures r.Saved? && !NoId(v) ==> r.store.values[r.id].created == v.created.value
    ensures r.Saved? && Valid(s) ==> Valid(r.store)
  {
    if v.watch !in s.watches then IntegrityError
    else if !NoId(v) && v.created.None? then IntegrityError
    else
      var row := Value(v.watch, if NoId(v) then now else v.created.value, v.content);
      match v.id
      case None =>
        var id := s.nextValueId;
        Saved(s.(values := s.values[id := row], nextValueId := id + 1), id)
      case Some(id) =>
        Saved(s.(values := s.values[id := row],
                 nextValueId := if id < s.nextValueId then s.nextValueId else id + 1), id)
  }

  /** Deletes Watch `id`; the foreign key from Value cascades, removing exactly its Values. */
  function DeleteWatch(s: Store, id: WatchId): (r: Store)
    ensures forall k :: k in r.watches <==> k in s.watches && k != id
    ensures forall k :: k in r.watches ==> r.watches[k] == s.watches[k]
    ensures forall k :: k in r.values <==> k in s.values && s.values[k].watch != id
    ensures forall k :: k in r.values ==> r.values[k] == s.values[k]
    ensures r.users == s.users && r.nextWatchId == s.nextWatchId && r.nextValueId == s.nextValueId
    ensures Valid(s) ==> Valid(r)
  {
    s.(watches := s.watches - {id},
       values := map k | k in s.values && s.values[k].watch != id :: s.values[k])
  }

  /** Deletes user `u`; the foreign key from Watch cascades to u's Watches, and from there to
      their Values. */
  function DeleteUser(s: Store, u: UserId): (r: Store)
    ensures r.users == s.users - {u}
    ensures forall k :: k in r.watches <==> k in s.watches && s.watches[k].owner != u
    ensures forall k :: k in r.watches ==> r.watches[k] == s.watches[k]
    ensures Valid(s) ==>
      forall k :: k in r.values <==> k in s.values && s.watches[s.values[k].watch].owner != u
    ensures forall k :: k in r.values ==> k in s.values && r.values[k] == s.values[k]
    ensures r.nextWatchId == s.nextWatchId && r.nextValueId == s.nextValueId
    ensures Valid(s) ==> Valid(r)
  {
    var doomed := set k | k in s.watches && s.watches[k].owner == u;
    s.(users := s.users - {u},
       watches := s.watches - doomed,
       values := map k | k in s.values && s.values[k].watch !in doomed :: s.values[k])
  }

  /** Once created, a Value's timestamp survives any number of later saves of the loaded
      instance, whatever its content is changed to and whenever they happen. */
  lemma CreatedStampedOnce(s: Store, w: WatchId, content: Option<string>, t1: Time,
                           newContent: string, t2: Time)
    requires Valid(s) && w in s.watches
    ensures SaveValue(s, NewValue(w, content), t1).Saved?
    ensures
      var first := SaveValue(s, NewValue(w, content), t1);
      var loaded := LoadValue(first.store, first.id);
      var second := SaveValue(first.store, loaded.(content := newContent), t2);
      && second.Saved?
      && second.id == first.id
      && second.store.values[second.id].created == t1
      && first.store.values[first.id].content == (if content.Some? then content.value else "")
  {
  }
}

=== FILE: properties.dfy ===
/**
 * Properties of whole request sequences handled by the API: the store
 * invariant is kept by every request, a request never touches another
 * user's Watches, failed requests change nothing, and the schedule a
 * Watch is created with survives its updates.
 */
module Properties {
  import opened Models
  import opened Views

  /** A status that reports a refused or failed request. */
  predicate IsFailure(st: Status) {
    st == BadRequest || st == Unauthorized || st == NotFound || st == ServerError
  }

  /** An update that sends `next_check` as an explicit null. */
  predicate SendsNullNextCheck(req: Request) {
    req.DetailRequest? && req.detailMethod.DetailPut? && req.detailMethod.input.nextCheck == Some(None)
  }

  /** Every request keeps the referential part of the store invariant: owners exist, no Value
      dangles and every key came from its counter. Every Watch stays scheduled too, once
      corrected; as the code stands, only an update that sends a null `next_check` can
      unschedule one. */
  lemma HandlePreservesValid(api: Api, s: Store, requester: Option<UserId>, req: Request, now: Time)
    requires Valid(s)
    ensures var r := Handle(api, s, requester, req, now).store;
      OwnersExist(r) && NoDanglingValues(r) && IdsIssued(r)
    ensures api.Corrected? || !SendsNullNextCheck(req) ==> Valid(Handle(api, s, requester, req, now).store)
  {
  }

  /** As the code stands, the owner of a scheduled Watch can clear its `next_check` by sending
      a null in a valid update, leaving a Watch the store invariant says cannot exist; the
      corrected update keeps the schedule. */
  lemma PutNullUnschedules()
    ensures
      var s := Store({1}, map[1 := Watch("watch1", "http://example.com/test1", "/books[1]", 5, Some(105), false, 1)],
                     map[], 2, 1);
      var req := DetailRequest(1, DetailPut(WatchInput("w12", "http://example.com/test21", "/table[1]",
                                                       Some(10), None, Some(None))));
      && Valid(s)
      && SendsNullNextCheck(req)
      && Handle(AsWritten, s, Some(1), req, 200).status == Ok
      && Handle(AsWritten, s, Some(1), req, 200).store.watches[1].nextCheck == None
      && !Valid(Handle(AsWritten, s, Some(1), req, 200).store)
      && Handle(Corrected, s, Some(1), req, 200).store.watches[1].nextCheck == Some(105)
  {
  }

  /** Refused or failed requests leave the store as it was. */
  lemma FailuresChangeNothing(api: Api, s: Store, requester: Option<UserId>, req: Request, now: Time)
    ensures IsFailure(Handle(api, s, requester, req, now).status) ==> Handle(api, s, requester, req, now).store == s
  {
  }

  /** Without credentials, the list, detail and latest-value routes answer 401 with an empty
      body and no change. The value list does too once corrected; as the code stands it answers
      any client, and changes nothing either way. */
  lemma UnauthenticatedIsRefused(api: Api, s: Store, req: Request, now: Time)
    ensures !(api.AsWritten? && req.ValueListRequest?) ==>
      Handle(api, s, None, req, now) == Response(Unauthorized, NoBody, s)
    ensures api.AsWritten? && req.ValueListRequest? ==>
      && Handle(api, s, None, req, now).store == s
      && (Handle(api, s, None, req, now).status == Ok <==> req.pk in s.watches)
  {
  }

  /** No request, whoever sends it, changes or removes a Watch the requester does not own, or
      any Value recorded for such a Watch. */
  lemma OthersWatchesUntouched(api: Api, s: Store, requester: Option<UserId>, req: Request, now: Time)
    requires Valid(s)
    ensures var r := Handle(api, s, requester, req, now);
      && (forall id :: id in s.watches && requester != Some(s.watches[id].owner) ==>
            id in r.store.watches && r.store.watches[id] == s.watches[id])
      && (forall id :: id in s.values && requester != Some(s.watches[s.values[id].watch].owner) ==>
            id in r.store.values && r.store.values[id] == s.values[id])
  {
  }

  /** A user's Watch list holds a Watch exactly when that user is its owner; since each Watch
      has one owner, it appears in exactly one user's list. */
  lemma ListedExactlyForOwner(api: Api, s: Store, u: UserId, id: WatchId, now: Time)
    requires Valid(s) && id in s.watches
    ensures s.watches[id].owner in s.users
    ensures var r := Handle(api, s, Some(u), ListRequest(ListGet), now);
      r.body.WatchesBody? && (id in r.body.watches <==> u == s.watches[id].owner)
  {
  }

  /** Creating a Watch and then deleting it restores the store, except that the Watch key it
      used is not handed out again. */
  lemma CreateThenDeleteRestores(api: Api, s: Store, u: UserId, input: WatchInput, t1: Time, t2: Time)
    requires Valid(s) && u in s.users && Errors(input) == {}
    ensures Handle(api, s, Some(u), ListRequest(ListPost(input)), t1).status == Created
    ensures
      var created := Handle(api, s, Some(u), ListRequest(ListPost(input)), t1);
      var deleted := Handle(api, created.store, Some(u), DetailRequest(created.body.id, DetailDelete), t2);
      && deleted.status == NoContent
      && deleted.store == s.(nextWatchId := s.nextWatchId + 1)
  {
  }

  /** The `next_check` a Watch is created with at `t1` survives any valid update by its owner,
      whenever it happens and whatever it changes. As the code stands, an update that sends its
      own `next_check` replaces it instead. */
  lemma NextCheckStampedOnce(api: Api, s: Store, u: UserId, input: WatchInput, t1: Time,
                             edit: WatchInput, t2: Time)
    requires Valid(s) && u in s.users && Errors(input) == {} && Errors(edit) == {}
    ensures
      var created := Handle(api, s, Some(u), ListRequest(ListPost(input)), t1);
      var id := created.body.id;
      var updated := Handle(api, created.store, Some(u), DetailRequest(id, DetailPut(edit)), t2);
      && created.status == Created
      && updated.status == Ok
      && id in updated.store.watches
      && (api.Corrected? || edit.nextCheck.None? ==>
            updated.store.watches[id].nextCheck == Some(t1 + input.period.value))
      && (api.AsWritten? && edit.nextCheck.Some? ==>
            updated.store.watches[id].nextCheck == edit.nextCheck.value)
      && updated.store.watches[id].owner == u
      && updated.store.watches[id].name == edit.name
  {
  }
}

=== FILE: views.dfy ===
/**
 * The request handlers of the watch API, as pure functions from a store, the
 * authenticated requester (None when the request carries no credentials),
 * the request and the current instant to a status, a response body and the
 * new store.
 */
module Views {
  import opened Models

  datatype Status = Ok | Created | NoContent | BadRequest | Unauthorized | NotFound | ServerError

  /** The input fields a validation error can be reported against. */
  datatype Field = NameField | UrlField | XPathField | PeriodField

  datatype Body =
    | NoBody
    | WatchBody(id: WatchId, watch: Watch)
    | WatchesBody(watches: map<WatchId, Watch>)
    | ValueBody(valueId: ValueId, value: Value)
    | ValuesBody(values: map<ValueId, Value>)
    | ErrorsBody(fields: set<Field>)

  datatype Response = Response(status: Status, body: Body, store: Store)

  /** The writable fields of a create or update request. `notify` and `nextCheck` are optional
      and None unless the client sends them; `nextCheck` is a nullable column, so a client may
      send it as `Some(None)` (an explicit null) or `Some(Some(t))` (an instant). `id` and
      `owner` are read-only and are never taken from the input. */
  datatype WatchInput = WatchInput(
    name: string,
    url: string,
    xpath: string,
    period: Option<Duration>,
    notify: Option<bool>,
    nextCheck: Option<Option<Time>>)

  /** The fields of `input` that fail validation: blank or over-long name and xpath, blank url,
      missing period. */
  function Errors(input: WatchInput): (r: set<Field>)
    ensures NameField in r <==> !(0 < |input.name| <= NameMaxLength)
    ensures UrlField in r <==> |input.url| == 0
    ensures XPathField in r <==> !(0 < |input.xpath| <= XPathMaxLength)
    ensures PeriodField in r <==> input.period.None?
  {
    (if input.name == [] || |input.name| > NameMaxLength then {NameField} else {})
    + (if input.url == [] then {UrlField} else {})
    + (if input.xpath == [] || |input.xpath| > XPathMaxLength then {XPathField} else {})
    + (if input.period.None? then {PeriodField} else {})
  }

  /** The instance a valid create request builds before its first save. */
  function Unsaved(input: WatchInput, owner: UserId): (w: Watch)
    requires input.period.Some?
  {
    Watch(input.name, input.url, input.xpath, input.period.value,
          if input.nextCheck.Some? then input.nextCheck.value else None,
          input.notify == Some(true), owner)
  }

  datatype ListMethod = ListGet | ListPost(input: WatchInput)

  /** `GET /watches/` lists the requester's Watches; `POST /watches/` creates one owned by them. */
  function WatchList(s: Store, requester: Option<UserId>, verb: ListMethod, now: Time): (r: Response)
    ensures requester.None? ==> r == Response(Unauthorized, NoBody, s)
    ensures requester.Some? && verb.ListGet? ==>
      && r.status == Ok && r.store == s && r.body.WatchesBody?
      && (forall id :: id in r.body.watches <==> id in s.watches && s.watches[id].owner == requester.value)
      && (forall id :: id in r.body.watches ==> r.body.watches[id] == s.watches[id])
    ensures requester.Some? && verb.ListPost? && Errors(verb.input) != {} ==>
      r == Response(BadRequest, ErrorsBody(Errors(verb.input)), s)
    ensures requester.Some? && verb.ListPost? && Errors(verb.input) == {}
            && requester.value !in s.users ==>
      r == Response(ServerError, NoBody, s)
    ensures requester.Some? && verb.ListPost? && Errors(verb.input) == {}
            && requester.value in s.users ==>
      && r.status == Created
      && r.body.WatchBody?
      && r.body.id == s.nextWatchId
      && (Valid(s) ==> r.body.id !in s.watches)
      && r.store.watches == s.watches[r.body.id := r.body.watch]
      && r.store.values == s.values
      && r.store.users == s.users
      && r.store.nextWatchId == s.nextWatchId + 1
      && r.store.nextValueId == s.nextValueId
      && r.body.watch.owner == requester.value
      && r.body.watch.name == verb.input.name
      && r.body.watch.url == verb.input.url
      && r.body.watch.xpath == verb.input.xpath
      && Some(r.body.watch.period) == verb.input.period
      && r.body.watch.notify == (verb.input.notify == Some(true))
      && r.body.watch.nextCheck == Some(now + verb.input.period.value)
  {
    match requester
    case None => Response(Unauthorized, NoBody, s)
    case Some(u) =>
      match verb
      case ListGet => Response(Ok, WatchesBody(OwnedBy(s, u)), s)
      case ListPost(input) =>
        if Errors(input) != {} then Response(BadRequest, ErrorsBody(Errors(input)), s)
        else
          match SaveWatch(s, None, Unsaved(input, u), now)
          case IntegrityError => Response(ServerError, NoBody, s)
          case Saved(s', id) => Response(Created, WatchBody(id, s'.watches[id]), s')
  }

  /** The Watch a valid update writes: the editable fields come from the input, `notify` only
      when it is sent, while `next_check`, which only a first save may stamp, and the owner are
      kept. */
  function ApplyPut(w: Watch, input: WatchInput): (r: Watch)
    requires input.period.Some?
    ensures r.nextCheck == w.nextCheck && r.owner == w.owner
    ensures r.name == input.name && r.url == input.url && r.xpath == input.xpath
    ensures Some(r.period) == input.period
    ensures input.notify.Some? ==> r.notify == input.notify.value
    ensures input.notify.None? ==> r.notify == w.notify
  {
    Watch(input.name, input.url, input.xpath, input.period.value, w.nextCheck,
          if input.notify.Some? then input.notify.value else w.notify, w.owner)
  }

  /** The Watch an update writes as the code stands: `next_check` is a writable, optional and
      nullable serializer field, so a client that sends an instant or a null replaces the
      stamped value. */
  function ApplyPutAsWritten(w: Watch, input: WatchInput): (r: Watch)
    requires input.period.Some?
    ensures r.owner == w.owner
    ensures input.nextCheck.None? ==> r == ApplyPut(w, input)
    ensures input.nextCheck.Some? ==> r == ApplyPut(w, input).(nextCheck := input.nextCheck.value)
  {
    ApplyPut(w, input).(nextCheck := if input.nextCheck.Some? then input.nextCheck.value else w.nextCheck)
  }

  /** A client re-sending the watch of the update tests with an extra `next_check` moves the
      stamped schedule, which the corrected update never does. */
  lemma PutAsWrittenMovesNextCheck()
    ensures
      var w := Watch("watch1", "http://example.com/test1", "/books[1]", 5, Some(105), false, 1);
      var input := WatchInput("w12", "http://example.com/test21", "/table[1]", Some(10), Some(true), Some(Some(0)));
      && Errors(input) == {}
      && ApplyPutAsWritten(w, input).nextCheck == Some(0)
      && ApplyPutAsWritten(w, input).nextCheck != w.nextCheck
      && ApplyPut(w, input).nextCheck == w.nextCheck
  {
  }

  /** Which behaviour the views follow where the code departs from its evident intent: the code
      as it stands, or the corrected update and value list. */
  datatype Api = AsWritten | Corrected

  /** The Watch an update writes under `api`. */
  function Update(api: Api, w: Watch, input: WatchInput): (r: Watch)
    requires input.period.Some?
  {
    match api
    case AsWritten => ApplyPutAsWritten(w, input)
    case Corrected => ApplyPut(w, input)
  }

  datatype DetailMethod = DetailGet | DetailPut(input: WatchInput) | DetailDelete

  /** `GET|PUT|DELETE /watches/<pk>`: authentication first, then existence, then ownership. */
  function WatchDetail(api: Api, s: Store, requester: Option<UserId>, pk: WatchId, verb: DetailMethod,
                       now: Time): (r: Response)
    ensures requester.None? ==> r == Response(Unauthorized, NoBody, s)
    ensures requester.Some? && pk !in s.watches ==> r == Response(NotFound, NoBody, s)
    ensures requester.Some? && pk in s.watches && s.watches[pk].owner != requester.value ==>
      r == Response(Unauthorized, NoBody, s)
    ensures requester.Some? && pk in s.watches && s.watches[pk].owner == requester.value ==>
      match verb
      case DetailGet => r == Response(Ok, WatchBody(pk, s.watches[pk]), s)
      case DetailPut(input) =>
        if Errors(input) != {} then r == Response(BadRequest, ErrorsBody(Errors(input)), s)
        else if requester.value !in s.users then r == Response(ServerError, NoBody, s)
        else
          && r.status == Ok
          && r.store.users == s.users
          && r.store.nextValueId == s.nextValueId
          && (Valid(s) ==> r.store == s.(watches := r.store.watches))
          && r.store.watches.Keys == s.watches.Keys
          && r.body == WatchBody(pk, r.store.watches[pk])
          && (forall id :: id in s.watches && id != pk ==> r.store.watches[id] == s.watches[id])
          && r.store.values == s.values
          && r.store.watches[pk].nextCheck ==
               (if api.AsWritten? && input.nextCheck.Some? then input.nextCheck.value else s.watches[pk].nextCheck)
          && r.store.watches[pk].owner == requester.value
          && r.store.watches[pk].name == input.name
          && r.store.watches[pk].url == input.url
          && r.store.watches[pk].xpath == input.xpath
          && Some(r.store.watches[pk].period) == input.period
          && r.store.watches[pk].notify ==
               (if input.notify.Some? then input.notify.value else s.watches[pk].notify)
      case DetailDelete =>
        && r.status == NoContent && r.body == NoBody
        && pk !in r.store.watches
        && r.store == DeleteWatch(s, pk)
  {
    match requester
    case None => Response(Unauthorized, NoBody, s)
    case Some(u) =>
      if pk !in s.watches then Response(NotFound, NoBody, s)
      else
        var w := s.watches[pk];
        if u != w.owner then Response(Unauthorized, NoBody, s)
        else
          match verb
          case DetailGet => Response(Ok, WatchBody(pk, w), s)
          case DetailPut(input) =>
            if Errors(input) != {} then Response(BadRequest, ErrorsBody(Errors(input)), s)
            else
              (match SaveWatch(s, Some(pk), Update(api, w, input), now)
               case IntegrityError => Response(ServerError, NoBody, s)
               case Saved(s', id) => Response(Ok, WatchBody(id, s'.watches[id]), s'))
          case DetailDelete => Response(NoContent, NoBody, DeleteWatch(s, pk))
  }

  /** `a`, stored under key `i`, was created no later than `b`, stored under key `j`. Equal
      timestamps are ordered by key so that exactly one Value is the latest. */
  predicate NotAfter(a: Value, i: ValueId, b: Value, j: ValueId) {
    a.created < b.created || (a.created == b.created && i <= j)
  }

  predicate IsLatest(vals: map<ValueId, Value>, k: ValueId) {
    k in vals && forall j :: j in vals ==> NotAfter(vals[j], j, vals[k], k)
  }

  /** Every non-empty finite collection of Values has exactly one latest Value. */
  lemma {:induction false} LatestExists(vals: map<ValueId, Value>)
    requires |vals| > 0
    ensures exists k :: IsLatest(vals, k)
    ensures forall k1, k2 :: IsLatest(vals, k1) && IsLatest(vals, k2) ==> k1 == k2
    decreases |vals|
  {
    var k0 :| k0 in vals;
    var rest := vals - {k0};
    if |rest| == 0 {
      assert vals.Keys == rest.Keys + {k0};
      assert vals.Keys == {k0};
      assert IsLatest(vals, k0);
    } else {
      LatestExists(rest);
      var k1 :| IsLatest(rest, k1);
      if NotAfter(vals[k0], k0, vals[k1], k1) {
        forall j | j in vals ensures NotAfter(vals[j], j, vals[k1], k1) {
          if j != k0 {
            assert j in rest && rest[j] == vals[j];
          }
        }
        assert IsLatest(vals, k1);
      } else {
        forall j | j in vals ensures NotAfter(vals[j], j, vals[k0], k0) {
          if j != k0 {
            assert j in rest && rest[j] == vals[j];
            assert NotAfter(vals[j], j, vals[k1], k1);
          }
        }
        assert IsLatest(vals, k0);
      }
    }
  }

  /** `values.latest('created')`: the key of the Value with the greatest `created`, or None
      when there is no Value to choose from. */
  function Latest(vals: map<ValueId, Value>): (r: Option<ValueId>)
    ensures r.None? <==> |vals| == 0
    ensures r.Some? ==> r.value in vals
    ensures r.Some? ==> forall j :: j in vals ==> vals[j].created <= vals[r.value].created
  {
    if |vals| == 0 then None
    else
      LatestExists(vals);
      var k :| IsLatest(vals, k);
      Some(k)
  }

  /** `GET /watches/<pk>/value`: the latest Value of the requester's own Watch. With no Value
      recorded, the lookup raises an exception the view does not catch: a server error. */
  function WatchValueLatest(s: Store, requester: Option<UserId>, pk: WatchId): (r: Response)
    ensures r.store == s
    ensures requester.None? ==> r.status == Unauthorized && r.body == NoBody
    ensures requester.Some? && pk !in s.watches ==> r.status == NotFound && r.body == NoBody
    ensures requester.Some? && pk in s.watches && s.watches[pk].owner != requester.value ==>
      r.status == Unauthorized && r.body == NoBody
    ensures requester.Some? && pk in s.watches && s.watches[pk].owner == requester.value ==>
      && (ValuesOf(s, pk) == map[] <==> r.status == ServerError)
      && (ValuesOf(s, pk) != map[] ==>
            && r.status == Ok
            && r.body.ValueBody?
            && r.body.valueId in s.values
            && r.body.value == s.values[r.body.valueId]
            && r.body.value.watch == pk
            && forall id :: id in s.values && s.values[id].watch == pk ==>
                 s.values[id].created <= r.body.value.created)
  {
    match requester
    case None => Response(Unauthorized, NoBody, s)
    case Some(u) =>
      if pk !in s.watches then Response(NotFound, NoBody, s)
      else if u != s.watches[pk].owner then Response(Unauthorized, NoBody, s)
      else
        var vals := ValuesOf(s, pk);
        match Latest(vals)
        case None => Response(ServerError, NoBody, s)
        case Some(k) => Response(Ok, ValueBody(k, vals[k]), s)
  }

  /** `GET /watches/<pk>/value/all` as the code stands: there is no requester to check, so any
      client, authenticated or not, owner or not, reads the Values of any existing Watch. */
  function WatchValueList(s: Store, pk: WatchId): (r: Response)
    ensures r.store == s
    ensures pk !in s.watches <==> r.status == NotFound
    ensures pk in s.watches ==>
      && r.status == Ok
      && r.body.ValuesBody?
      && (forall id :: id in r.body.values <==> id in s.values && s.values[id].watch == pk)
      && (forall id :: id in r.body.values ==> r.body.values[id] == s.values[id])
  {
    if pk !in s.watches then Response(NotFound, NoBody, s)
    else Response(Ok, ValuesBody(ValuesOf(s, pk)), s)
  }

  /** The value list with the guards of the other per-Watch views: authentication, then
      existence, then ownership. */
  function WatchValueListGuarded(s: Store, requester: Option<UserId>, pk: WatchId): (r: Response)
    ensures r.store == s
    ensures r.status == Ok <==> requester.Some? && pk in s.watches && s.watches[pk].owner == requester.value
    ensures requester.None? ==> r.status == Unauthorized
    ensures requester.Some? && pk !in s.watches ==> r.status == NotFound
    ensures requester.Some? && pk in s.watches && s.watches[pk].owner != requester.value ==>
      r.status == Unauthorized
    ensures r.status == Ok ==> r == WatchValueList(s, pk)
    ensures r.status != Ok ==> r.body == NoBody
  {
    match requester
    case None => Response(Unauthorized, NoBody, s)
    case Some(u) =>
      if pk !in s.watches then Response(NotFound, NoBody, s)
      else if u != s.watches[pk].owner then Response(Unauthorized, NoBody, s)
      else WatchValueList(s, pk)
  }

  /** As the code stands, a client with no credentials reads the Values of another user's
      Watch; with the guards it is refused. */
  lemma ValueListAsWrittenLeaks()
    ensures
      var s := Store({1, 2}, map[1 := Watch("watch1", "http://example.com/test1", "/books[1]", 5, Some(5), false, 1)],
                     map[1 := Value(1, 3, "2.3.7"), 2 := Value(1, 4, "2.4.5")], 2, 3);
      && WatchValueList(s, 1).status == Ok
      && WatchValueList(s, 1).body.values == map[1 := Value(1, 3, "2.3.7"), 2 := Value(1, 4, "2.4.5")]
      && WatchValueListGuarded(s, None, 1).status == Unauthorized
      && WatchValueListGuarded(s, Some(2), 1).status == Unauthorized
  {
  }

  /** The four routes of the API. */
  datatype Request =
    | ListRequest(listMethod: ListMethod)
    | DetailRequest(pk: WatchId, detailMethod: DetailMethod)
    | LatestValueRequest(pk: WatchId)
    | ValueListRequest(pk: WatchId)

  /** A request that asks to change the store: a create, an update or a delete. */
  predicate IsWrite(req: Request) {
    || (req.ListRequest? && req.listMethod.ListPost?)
    || (req.DetailRequest? && !req.detailMethod.DetailGet?)
  }

  /** Routes a request to its view under `api`: as the code stands, the value list answers
      without guards; corrected, it goes through the guarded view. */
  function Handle(api: Api, s: Store, requester: Option<UserId>, req: Request, now: Time): (r: Response)
    ensures r.store != s ==> requester.Some? && IsWrite(req)
    ensures r.status == Ok && req.DetailRequest? ==>
      && r.body.WatchBody? && r.body.id == req.pk
      && req.pk in r.store.watches && r.body.watch == r.store.watches[req.pk]
    ensures r.status == Ok && (req.LatestValueRequest? || req.ValueListRequest?) ==> req.pk in s.watches
  {
    match req
    case ListRequest(m) => WatchList(s, requester, m, now)
    case DetailRequest(pk, m) => WatchDetail(api, s, requester, pk, m, now)
    case LatestValueRequest(pk) => WatchValueLatest(s, requester, pk)
    case ValueListRequest(pk) =>
      match api
      case AsWritten => WatchValueList(s, pk)
      case Corrected => WatchValueListGuarded(s, requester, pk)
  }
}
